=== FILE: README.md ===
# Chat turn handler of the Zenith mental-health companion, in Dafny

This project models the one part of the chat application that has control flow
of its own: the chat view's turn handler `sendMessage`, together with the
effects that feed the view's state and the emoji table used to badge messages.

A turn reads the text in the input box and does nothing if the text is blank or a
turn is already in flight. Otherwise it:

1. shows the user's message straight away and clears the input;
2. asks the AI service whether the text signals distress. On `ALERT` it fires
   the emergency callback and stops there, with no reply and no save;
3. otherwise continues the current session, or starts a new one titled with the
   first 25 code units of the text;
4. requests a reply with the session's history plus the new message, and tags
   the reply with its sentiment;
5. shows the reply, makes the extended session current and saves it;
6. in conversation mode, speaks the reply.

An error thrown by the distress, reply, sentiment, save, speech or playback
call ends the turn where it stands, with nothing rolled back, and is logged. The in-flight flag is cleared on every path the guard lets through.

The model is functional:

- `Types` holds the message and session records and the `Emotion` enumeration.
- `Js` holds the JavaScript string primitives the handler relies on. Text is a
  sequence of UTF-16 code units, so `trim()` and `slice(0, 25)` behave as in
  JavaScript. `Date.now().toString()` becomes `Decimal`.
- `EmotionMap` holds the emoji table, its inverse, and the badge shown next to
  a tagged message. Each emoji is a JavaScript string of two code units (a
  surrogate pair), like all other text in the model.
- `ChatView` holds the component state and the turn as a pure step function
  `SendMessage`. Everything the program gets from outside arrives as
  parameters:
  - `Oracle` holds each external call's value, or the fact that it threw.
  - `Clock` holds the millisecond every wall-clock read returns.
  - `Props` holds the user, language, location, conversation mode and whether
    audio is ready.

  What the turn does outside its own state comes back as an ordered list of
  `Effect`s. `LoadLastChat` and `MirrorDictation` model the two state-setting
  effects.
- `ChatViewProperties` states what a turn promises for each outcome, and an
  invariant that every turn keeps. The invariant is that the current session is
  made of whole user/model pairs, and that all of them are still shown, in
  order, in the transcript.

Three behaviours of the program are stated as lemmas, not as defects:
- A message whose distress check said `ALERT` stays in the transcript but
  never enters a session.
- Initial messages handed to the view on mount are shown, but the next turn
  starts a fresh session. Its reply request carries only the new message as
  history.
- The load effect runs again whenever the initial messages change. That re-run
  replaces the transcript but keeps the current session. The next turn then
  continues a session the transcript no longer shows, and its reply request
  carries that session's whole history. So the invariant "the session is shown
  in the transcript" holds from mount and across turns, but a re-run can break
  it.

The title is cut after 25 UTF-16 code units, not 25 characters, so it can split
a surrogate pair.

## Model

| member | source | states |
|---|---|---|
| `Js.Trim` | ChatView.tsx:99 | `text.trim()` is empty exactly when the text is all ECMAScript white space; otherwise it neither starts nor ends with white space |
| `Js.TrimIsInfix` | ChatView.tsx:99 | what `trim()` keeps is one contiguous run of the text with only white space around it |
| `ChatView.GuardIsTrim` | ChatView.tsx:99 | the turn's guard holds exactly when `text.trim()` is non-empty and no turn is in flight |
| `Js.SlicePrefix` | ChatView.tsx:122 | `slice(0, n)` is a prefix of the text of length min(n, length) |
| `Js.Decimal` | ChatView.tsx:104 | a clock reading prints as a non-empty string of decimal digits with no leading zero |
| `Js.ParseDecimalOfDecimal` | ChatView.tsx:104 | reading back the printed digits gives the clock reading |
| `Js.DecimalInjective` | ChatView.tsx:104 | two readings print alike exactly when they are equal |
| `ChatView.UserMessageId` | ChatView.tsx:104 | a user message id is a non-empty string of digits that reads back as the clock reading |
| `ChatView.ModelMessageId` | ChatView.tsx:136 | a model message id is digits followed by `_m`, and the digits read back as the clock reading |
| `ChatView.SessionId` | ChatView.tsx:121 | a session id is `s_` followed by digits that read back as the clock reading |
| `ChatView.SessionAndMessageIdsDiffer` | ChatView.tsx:104-136 | a session id never equals a user or a model message id, whatever the clock returns |
| `ChatView.UserAndModelIdsDiffer` | ChatView.tsx:104-136 | a user message id (`Date.now()` digits) never equals a model message id (`Date.now() + '_m'`), whatever the clock returns |
| `ChatView.UserIdsCollideExactlyOnSameTick` | ChatView.tsx:103-104 | two user message ids collide exactly when the clock returned the same millisecond for both |
| `Js.Astral` | ChatView.tsx:25-34 | an emoji outside the Basic Multilingual Plane is stored as a surrogate pair that decodes back to its code point |
| `Js.AstralOfPair` | ChatView.tsx:25-34 | every surrogate pair is the encoding of the code point it decodes to, so encoding and decoding are inverse |
| `EmotionMap.Glyph` | ChatView.tsx:25-34 | each emotion's badge is one emoji: a surrogate pair whose code point is the one the table gives that emotion |
| `EmotionMap.EmotionOfGlyph` | ChatView.tsx:25-34 | a string read back as an emotion is that emotion's badge in the table |
| `EmotionMap.GlyphRoundTrip` | ChatView.tsx:25-34 | the table is total over the eight emotions and every badge identifies its emotion, so no two share one |
| `EmotionMap.Badge` | ChatView.tsx:195 | a message shows a badge exactly when it carries an emotion tag, and the badge identifies that tag |
| `ChatView.OutcomesPartition` | ChatView.tsx:113-143 | every combination of call results is exactly one of: ALERT, a throw before the save, or a turn that reaches the save |
| `ChatView.UserMessage` | ChatView.tsx:103-108 | the message shown for the input holds the typed text verbatim, comes from the user, has no emotion tag, and is stamped and identified by the clock |
| `ChatView.ModelMessage` | ChatView.tsx:135-141 | the message shown for the reply holds the reply text verbatim, comes from the model, is tagged with the sentiment, and is identified by the clock digits plus `_m` |
| `ChatViewProperties.OnlyRepliesShowABadge` | ChatView.tsx:103-141 | a user message never shows a badge; a reply shows the badge of its sentiment, which reads back as that sentiment |
| `ChatView.BaseSession` | ChatView.tsx:119-126 | the turn continues the current session unchanged when there is one; otherwise it starts an empty session titled with the first 25 code units of the text, with id `s_` plus the clock digits and the clock's start time |
| `ChatView.NewSession` | ChatView.tsx:119-126 | a new session starts with no messages, is titled with the first 25 code units of the text (or all of it if shorter), is identified by `s_` plus the clock digits, and takes its start and last-message times from the clock |
| `ChatView.Answer` | ChatView.tsx:119-143 | after a non-ALERT verdict the reply is requested with the base session's messages plus the user message; a throw from the reply or sentiment call ends the turn there, so the effects are exactly the calls made up to and including it followed by the error log; only the user message is shown and nothing is saved; otherwise the turn is `Answered` |
| `ChatView.Answered` | ChatView.tsx:119-152 | once reply and sentiment arrive, the user and model messages are shown; the session holds the history plus the model message, keeps its id, title and start time, has its last-message time refreshed from the clock, becomes current, and is saved after the distress, reply and sentiment calls; the emergency callback never fires |
| `ChatView.SpeechOutcome` | ChatView.tsx:155-166 | after a speech request: an error logged alone exactly when the request throws; playback exactly when it returns non-empty audio, of that audio; an error logged after playback exactly when starting playback throws; nothing for null or empty audio |
| `ChatView.Persist` | ChatView.tsx:145-164 | the save comes first; a throwing save is logged and skips speech; speech is requested only in conversation mode with audio ready, and only non-empty audio is played |
| `ChatView.SendMessage` | ChatView.tsx:98-170 | a blank input or a turn in flight changes nothing and calls nothing; an accepted turn clears the input and the in-flight flag, keeps the old transcript as a prefix followed by the user message, and calls distress analysis first |
| `ChatView.LoadLastChat` | ChatView.tsx:86-96 | non-empty initial messages become the transcript without touching storage or the session; otherwise the user's last stored session, if any, becomes both transcript and session; input and flag are never touched |
| `ChatView.MirrorDictation` | ChatView.tsx:79-83 | in conversation mode the input becomes the dictation result; otherwise nothing changes; only the input is ever touched |
| `ChatViewProperties.BlankInputIsIgnored` | ChatView.tsx:99 | all-white-space input leaves the state unchanged with no effects |
| `ChatViewProperties.AlertShortCircuits` | ChatView.tsx:103-116 | on ALERT the transcript gains only the user message, the input and flag are cleared, the session is unchanged, and the only effects are the distress request and then the emergency callback: no reply is requested and nothing is saved |
| `ChatViewProperties.FailureBeforeSaveKeepsUserMessage` | ChatView.tsx:110-143 | a throw from the distress, reply or sentiment call ends the turn at that call: the effects are exactly the calls made up to and including the failing one, then the error log; the user message stays shown with no rollback, nothing is saved, the session is unchanged and the flag is cleared |
| `ChatViewProperties.SuccessfulTurnAppendsPair` | ChatView.tsx:103-143 | a turn that gets its reply appends exactly the user message (the typed text) and then the model message (reply text, sentiment tag), with distinct ids |
| `ChatViewProperties.SuccessfulTurnSavesExtendedSession` | ChatView.tsx:119-152 | the reply history is the base session's messages plus the user message; the saved and current session holds that history plus the model message; a continued session keeps id, title and start time; a new one is titled from the text, with id `s_` plus the clock digits and the clock's start time; the last-message time is refreshed from the clock; distress, reply, sentiment and save happen in that order |
| `ChatViewProperties.SpeechFollowsSave` | ChatView.tsx:151-164 | speech happens after the save, so a speech or playback failure leaves the saved session standing and is logged; null or empty audio is not played |
| `ChatViewProperties.ResubmitIsIgnored` | ChatView.tsx:99-111 | after any accepted turn the input is empty, so an immediate second submission does nothing |
| `ChatViewProperties.SendMessagePreservesSessionShown` | ChatView.tsx:110-151 | every turn, whatever its outcome, keeps the current session made of user/model pairs and inside the transcript in order |
| `ChatViewProperties.LoadOnMountEstablishesSessionShown` | ChatView.tsx:44-96 | the load on mount leaves the session inside the transcript, given the stored session is made of whole pairs |
| `ChatViewProperties.SavedSessionIsPaired` | ChatView.tsx:128-152 | every session a turn saves is made of whole user/model pairs |
| `ChatViewProperties.AlertedMessageIsNeverSaved` | ChatView.tsx:110-147 | after an ALERT turn and then a successful one, the transcript shows all three new messages but the session gains only the second turn's pair |
| `ChatViewProperties.InitialMessagesStayOutOfSession` | ChatView.tsx:86-133 | after loading initial messages on mount, the first turn requests a reply with only the new user message as history and saves a session holding only the new pair |
| `ChatViewProperties.ReloadKeepsHiddenSession` | ChatView.tsx:86-133 | when the load re-runs with initial messages while a session is current, the transcript becomes the initial messages but the session stays; the next turn sends the whole hidden session history with its reply request and saves that history plus the new pair |
| `ChatViewProperties.ReloadCanHideSession` | ChatView.tsx:86-96 | a re-run of the load with initial messages can leave a shown session no longer shown in the transcript |
| `ChatViewProperties.DictationFeedsTurn` | ChatView.tsx:79-113 | in conversation mode, non-blank dictated text is what the next turn shows and sends for distress analysis |

## Left out

- Rendering, markdown, the AudioContext set-up and the textarea auto-resize (ChatView.tsx:60-76, 172-231) are user-interface only. The one exception is the badge lookup at line 195.
- The AI calls `analyzeForDistress`, `getChatMessageResponse`, `analyzeTextSentiment`, `generateSpeech` and `analyzeFacialEmotion` are not part of this model. Their results are oracle parameters, and each call either returns a value or throws.
- `saveChatSession`, `getLastChatSession` and `playBase64Audio` are not part of this model. A save is recorded as an effect and may throw, and so may starting playback; the stored last session is a parameter. No save-then-load round trip is claimed, because storage is not shown.
- The text-to-speech status callbacks passed to `playBase64Audio` (lines 160-161) are left out, because they run inside audio code that is not part of this model.
- Async interleaving and React's stale closures over `sending` are concurrency. Each call is one atomic step, so the moment with `sending` set to true is not visible in the result.
- Uniqueness of ids and timestamps is not modelled. The clock is a record of arbitrary readings; the model proves when ids collide, not that they never do.
- The 2000-code-unit limit (lines 23, 212) belongs to the textarea, not to `sendMessage`.
- Typing into the textarea (line 207) and the Enter/button wiring (lines 208-216) are left out. Lemmas that need fresh input set the state's text directly.
- App.tsx (routing, theme, geolocation wiring) and constants.ts (static data) are outside the chat view.
- The live location's structure belongs to the geolocation hook, so it is an opaque type passed through to the reply request unchanged.
- The optional `groundingMetadata` field of a message is left out, because the chat view never sets it.
- `console.error`'s argument becomes a bare `LogError` effect.
- The emergency callback is assumed not to throw, and the sentiment result is assumed to be one of the eight emotions.
- ChatView.LoadLastChat: `getLastChatSession` (line 90) is assumed not to throw. It runs in the load effect outside any `try`, so a throw would escape the chat view to React rather than change the view's state.
- Js.Decimal: agrees with JavaScript's `toString()` only below 10^21, where JavaScript switches to exponent notation. `Date.now()` never exceeds 8.64e15, so a clock reading never reaches that range. Readings before 1970 (negative numbers) are not modelled.

=== FILE: chat_view.dfy ===
/** The chat view's turn handler and the effects that feed its state.

    The handler is a pure step from one component state to the next. What the
    program obtains from outside (the AI service verdicts and replies, local
    storage, the wall clock) arrives as parameters, and what it sends outside
    (service requests, the emergency callback, the save, playback, the error
    log) comes back as a list of effects in the order they happen.
 */
module ChatView {
  import opened Js
  import opened Types

  /** The live location forwarded with each reply request; its shape belongs
      to the geolocation hook, not to the chat view. */
  type Location(==)

  /** A new session's title is this many code units of its first message. */
  const TitleLength: nat := 25

  /** "ALERT": the distress verdict that switches the app to emergency mode. */
  const Alert: JsString := [0x41, 0x4C, 0x45, 0x52, 0x54]

  /** The component state: the visible transcript, the input box, the
      in-flight flag and the session being continued, if any. */
  datatype ChatState = ChatState(
    messages: seq<Message>,
    text: JsString,
    sending: bool,
    session: Option<ChatSession>)

  /** The state on mount. */
  const Mounted := ChatState([], [], false, None)

  /** What the view reads from its props and from the voice-control and audio
      context while handling a turn. */
  datatype Props = Props(
    userEmail: JsString,
    language: JsString,
    liveLocation: Option<Location>,
    conversationMode: bool,
    audioReady: bool)

  /** The settled value of an awaited call: a value, or a thrown error. */
  datatype Reply<+T> = Ok(value: T) | Threw

  /** What each external call of one turn yields, should the turn reach it. */
  datatype Oracle = Oracle(
    distress: Reply<JsString>,
    reply: Reply<JsString>,
    sentiment: Reply<Emotion>,
    save: Reply<()>,
    speech: Reply<Option<JsString>>,
    playback: Reply<()>)

  /** The millisecond each wall-clock read of one turn returns, in program
      order: the user message's id and timestamp, the new session's id, start
      and last-message times, the model message's id and timestamp, and the
      saved session's last-message time. Nothing is assumed about them: reads
      may repeat or even go backwards. */
  datatype Clock = Clock(
    userId: nat, userTime: nat,
    sessionId: nat, sessionStart: nat, sessionLast: nat,
    modelId: nat, modelTime: nat,
    savedLast: nat)

  /** What the view does to the world outside its own state. */
  datatype Effect =
    | ReadLastSession(userKey: JsString)
    | AnalyzeDistress(text: JsString)
    | ActivateEmergencyMode
    | RequestReply(text: JsString, history: seq<Message>, language: JsString, location: Option<Location>)
    | AnalyzeSentiment(text: JsString)
    | SaveSession(userKey: JsString, session: ChatSession)
    | GenerateSpeech(text: JsString)
    | PlayAudio(audio: JsString)
    | LogError

  datatype Step = Step(state: ChatState, effects: seq<Effect>)

  predicate NoSave(effects: seq<Effect>) {
    forall i | 0 <= i < |effects| :: !effects[i].SaveSession?
  }

  predicate NoReplyRequest(effects: seq<Effect>) {
    forall i | 0 <= i < |effects| :: !effects[i].RequestReply?
  }

  // ---------------------------------------------------------------------------
  // Identifiers

  /** `Date.now().toString()`: the clock's digits, which read back as the
      clock reading. */
  function UserMessageId(t: nat): (r: JsString)
    ensures |r| > 0 && AllDigits(r) && ParseDecimal(r) == t
  {
    ParseDecimalOfDecimal(t);
    Decimal(t)
  }

  /** `Date.now() + '_m'`: the clock's digits followed by `_m`. */
  function ModelMessageId(t: nat): (r: JsString)
    ensures |r| > 2 && r[|r| - 2..] == [0x5F, 0x6D]
    ensures AllDigits(r[..|r| - 2]) && ParseDecimal(r[..|r| - 2]) == t
  {
    var d := Decimal(t);
    ParseDecimalOfDecimal(t);
    assert (d + [0x5F, 0x6D])[..|d|] == d;
    d + [0x5F, 0x6D]
  }

  /** `` `s_${Date.now()}` ``: `s_` followed by the clock's digits. */
  function SessionId(t: nat): (r: JsString)
    ensures |r| > 2 && r[..2] == [0x73, 0x5F]
    ensures AllDigits(r[2..]) && ParseDecimal(r[2..]) == t
  {
    var d := Decimal(t);
    ParseDecimalOfDecimal(t);
    assert ([0x73, 0x5F] + d)[2..] == d;
    [0x73, 0x5F] + d
  }

  /** A session id never equals a message id: it starts with `s`, where a
      message id starts with a digit. */
  lemma SessionAndMessageIdsDiffer(t1: nat, t2: nat)
    ensures SessionId(t1) != UserMessageId(t2)
    ensures SessionId(t1) != ModelMessageId(t2)
  {
  }

  /** A user message id never equals a model message id, whatever the clock
      read: the model's id carries an underscore, the user's is all digits. */
  lemma UserAndModelIdsDiffer(t1: nat, t2: nat)
    ensures UserMessageId(t1) != ModelMessageId(t2)
  {
  }

  /** Two user messages get the same id exactly when the clock returned the
      same millisecond for both: ids are unique only as far as the clock is. */
  lemma UserIdsCollideExactlyOnSameTick(t1: nat, t2: nat)
    ensures UserMessageId(t1) == UserMessageId(t2) <==> t1 == t2
  {
    DecimalInjective(t1, t2);
  }

  // ---------------------------------------------------------------------------
  // The turn handler

  /** The guard `text.trim()` and not `sending`. By the contract of `Trim`,
      the trimmed input is non-empty exactly when the input is not all white
      space; `GuardIsTrim` states the equivalence. */
  predicate Accepts(s: ChatState) {
    !AllWhiteSpace(s.text) && !s.sending
  }

  lemma GuardIsTrim(s: ChatState)
    ensures Accepts(s) <==> Trim(s.text) != [] && !s.sending
  {
  }

  /** The distress check says ALERT. */
  predicate IsAlert(o: Oracle) {
    o.distress == Ok(Alert)
  }

  /** The turn gets through distress, reply and sentiment and reaches the save. */
  predicate ReachesSave(o: Oracle) {
    o.distress.Ok? && o.distress.value != Alert && o.reply.Ok? && o.sentiment.Ok?
  }

  /** One of the distress, reply or sentiment calls throws. */
  predicate FailsBeforeSave(o: Oracle) {
    || o.distress.Threw?
    || (o.distress.value != Alert && (o.reply.Threw? || o.sentiment.Threw?))
  }

  /** The three kinds of turn cover every outcome, and exclude each other. */
  lemma OutcomesPartition(o: Oracle)
    ensures IsAlert(o) || ReachesSave(o) || FailsBeforeSave(o)
    ensures !(IsAlert(o) && ReachesSave(o))
    ensures !(IsAlert(o) && FailsBeforeSave(o))
    ensures !(ReachesSave(o) && FailsBeforeSave(o))
  {
  }

  /** The message a turn shows for what the user typed: the typed text
      verbatim, from the user, untagged, stamped with the clock's reading and
      identified by its digits. */
  function UserMessage(text: JsString, now: Clock): (r: Message)
    ensures r.sender == User && r.text == text && r.emotion == None
    ensures r.timestamp == now.userTime
    ensures r.id == UserMessageId(now.userId)
  {
    Message(UserMessageId(now.userId), text, User, now.userTime, None)
  }

  /** The message a turn shows for the reply: the reply text verbatim, from
      the model, tagged with the sentiment, and identified by the clock's
      digits followed by `_m`. */
  function ModelMessage(reply: JsString, emotion: Emotion, now: Clock): (r: Message)
    ensures r.sender == Model && r.text == reply && r.emotion == Some(emotion)
    ensures r.timestamp == now.modelTime
    ensures r.id == ModelMessageId(now.modelId)
  {
    Message(ModelMessageId(now.modelId), reply, Model, now.modelTime, Some(emotion))
  }

  /** The session a turn starts when none is being continued: no messages yet,
      titled with the first 25 code units of the text (all of it if shorter),
      identified by `s_` and the clock's digits, and stamped with the clock. */
  function NewSession(text: JsString, now: Clock): (r: ChatSession)
    ensures r.messages == []
    ensures r.id == SessionId(now.sessionId)
    ensures r.startTime == now.sessionStart && r.lastMessageTime == now.sessionLast
    ensures r.title <= text && |r.title| == Min(TitleLength, |text|)
    ensures |text| <= TitleLength ==> r.title == text
  {
    ChatSession(SessionId(now.sessionId), SlicePrefix(text, TitleLength), [],
                now.sessionStart, now.sessionLast)
  }

  /** The session a turn extends: the current one, or a new one. */
  function BaseSession(s: ChatState, now: Clock): (r: ChatSession)
    ensures s.session.Some? ==> r == s.session.value
    ensures s.session.None? ==> r.messages == [] && r.title <= s.text
    ensures s.session.None? ==> |r.title| == Min(TitleLength, |s.text|)
    ensures s.session.None? ==> r.id == SessionId(now.sessionId) && r.startTime == now.sessionStart
  {
    match s.session
    case Some(current) => current
    case None => NewSession(s.text, now)
  }

  /** The state right after the optimistic update: the user message is shown,
      the input cleared, and (as the turn will end with it) the flag cleared. */
  function Shown(s: ChatState, now: Clock): ChatState {
    s.(messages := s.messages + [UserMessage(s.text, now)], text := [], sending := false)
  }

  /** The calls every turn past the ALERT check makes first: the distress
      analysis, then the reply request with the base session's history plus
      the user message. */
  function Asked(s: ChatState, props: Props, now: Clock): seq<Effect> {
    [AnalyzeDistress(s.text),
     RequestReply(s.text, BaseSession(s, now).messages + [UserMessage(s.text, now)], props.language, props.liveLocation)]
  }

  /** The part of a turn after a distress verdict other than ALERT: the reply
      request, the sentiment tag, the save and the speech. */
  function Answer(s: ChatState, props: Props, o: Oracle, now: Clock): (r: Step)
    requires o.distress.Ok? && o.distress.value != Alert
    ensures |r.effects| >= 2 && r.effects[0] == AnalyzeDistress(s.text)
    ensures r.effects[1] == RequestReply(s.text, BaseSession(s, now).messages + [UserMessage(s.text, now)],
                                         props.language, props.liveLocation)
    ensures ActivateEmergencyMode !in r.effects
    ensures !r.state.sending && r.state.text == []
    ensures |r.state.messages| > |s.messages|
    ensures r.state.messages[..|s.messages| + 1] == s.messages + [UserMessage(s.text, now)]
    ensures !ReachesSave(o) ==> r.state == Shown(s, now) && NoSave(r.effects) && LogError in r.effects
    ensures ReachesSave(o) ==> r == Answered(s, props, o, now)
    ensures o.reply.Threw? ==> r.effects == Asked(s, props, now) + [LogError]
    ensures o.reply.Ok? && o.sentiment.Threw? ==>
      r.effects == Asked(s, props, now) + [AnalyzeSentiment(o.reply.value), LogError]
  {
    var shown := Shown(s, now);
    var asked := Asked(s, props, now);
    if ReachesSave(o) then
      Answered(s, props, o, now)
    else if o.reply.Threw? then
      Step(shown, asked + [LogError])
    else
      Step(shown, asked + [AnalyzeSentiment(o.reply.value), LogError])
  }

  /** A turn whose reply and sentiment both arrived: both messages are shown,
      the session is extended by the pair, its last-message time refreshed,
      made current and saved, after the distress, reply and sentiment calls. */
  function Answered(s: ChatState, props: Props, o: Oracle, now: Clock): (r: Step)
    requires ReachesSave(o)
    ensures
      var user := UserMessage(s.text, now);
      var model := ModelMessage(o.reply.value, o.sentiment.value, now);
      var base := BaseSession(s, now);
      && model.id != user.id
      && !r.state.sending && r.state.text == []
      && r.state.messages == s.messages + [user, model]
      && r.state.session.Some?
      && r.state.session.value.messages == base.messages + [user, model]
      && r.state.session.value.id == base.id
      && r.state.session.value.title == base.title
      && r.state.session.value.startTime == base.startTime
      && r.state.session.value.lastMessageTime == now.savedLast
      && |r.effects| >= 4
      && r.effects[0] == AnalyzeDistress(s.text)
      && r.effects[1] == RequestReply(s.text, base.messages + [user], props.language, props.liveLocation)
      && r.effects[2] == AnalyzeSentiment(o.reply.value)
      && r.effects[3] == SaveSession(props.userEmail, r.state.session.value)
      && ActivateEmergencyMode !in r.effects
  {
    var text := s.text;
    var reply := o.reply.value;
    var user := UserMessage(text, now);
    var model := ModelMessage(reply, o.sentiment.value, now);
    var base := BaseSession(s, now);
    var history := base.messages + [user];
    var tagged := Asked(s, props, now) + [AnalyzeSentiment(reply)];
    var updated := base.(messages := history + [model], lastMessageTime := now.savedLast);
    var answered := s.(messages := s.messages + [user, model], text := [], sending := false,
                       session := Some(updated));
    var r := Persist(answered, tagged, reply, props, o);
    assert r.effects[..3] == tagged;
    assert r.effects[0] == tagged[0] && r.effects[1] == tagged[1] && r.effects[2] == tagged[2];
    r
  }

  /** The end of a turn that got its reply, once the transcript and the session
      are final: the save, and after it, in conversation mode with audio ready,
      the speech request. Only effects are added. */
  function Persist(answered: ChatState, before: seq<Effect>, reply: JsString, props: Props, o: Oracle): (r: Step)
    requires answered.session.Some?
    ensures r.state == answered
    ensures |r.effects| > |before| && r.effects[..|before|] == before
    ensures r.effects[|before|] == SaveSession(props.userEmail, answered.session.value)
    ensures ActivateEmergencyMode !in before ==> ActivateEmergencyMode !in r.effects
    ensures o.save.Threw? ==> r.effects[|before| + 1..] == [LogError]
    ensures o.save.Ok? && !(props.conversationMode && props.audioReady) ==> r.effects[|before| + 1..] == []
    ensures o.save.Ok? && props.conversationMode && props.audioReady ==>
      r.effects[|before| + 1..] == [GenerateSpeech(reply)] + SpeechOutcome(o.speech, o.playback)
  {
    var saved := before + [SaveSession(props.userEmail, answered.session.value)];
    var tail :=
      match o.save
      case Threw => [LogError]
      case Ok(_) =>
        if props.conversationMode && props.audioReady then [GenerateSpeech(reply)] + SpeechOutcome(o.speech, o.playback)
        else [];
    assert (saved + tail)[..|before|] == before;
    assert (saved + tail)[|before| + 1..] == tail;
    Step(answered, saved + tail)
  }

  /** Speech that yields non-empty audio, which is then played. */
  predicate Audible(speech: Reply<Option<JsString>>) {
    speech.Ok? && speech.value.Some? && |speech.value.value| > 0
  }

  /** What follows a speech request: playback of non-empty audio, nothing for
      null or empty audio, and an error logged when the request throws or when
      starting playback throws. */
  function SpeechOutcome(speech: Reply<Option<JsString>>, playback: Reply<()>): (r: seq<Effect>)
    ensures |r| <= 2
    ensures r == [LogError] <==> speech.Threw?
    ensures |r| > 0 && r[0].PlayAudio? <==> Audible(speech)
    ensures |r| > 0 && r[0].PlayAudio? ==> r[0].audio == speech.value.value
    ensures LogError in r <==> speech.Threw? || (Audible(speech) && playback.Threw?)
    ensures Audible(speech) ==> (|r| == 2 <==> playback.Threw?)
    ensures speech.Ok? && !Audible(speech) ==> r == []
  {
    match speech
    case Threw => [LogError]
    case Ok(audio) =>
      if Audible(speech) then
        if playback.Threw? then [PlayAudio(audio.value), LogError] else [PlayAudio(audio.value)]
      else
        []
  }

  /** `sendMessage`: one turn of the conversation.

      A blank input or a turn already in flight makes it a no-op. Otherwise
      the user message is shown at once and the input cleared; an ALERT
      verdict fires the emergency callback and ends the turn without a reply
      or a save; else the reply is requested with the session's history, tagged
      with its sentiment, shown, and the extended session is made current and
      saved. In conversation mode the reply is then spoken. An error thrown on
      the way ends the turn where it stands, with nothing rolled back. The
      in-flight flag is cleared whenever the guard let the turn through. */
  function SendMessage(s: ChatState, props: Props, o: Oracle, now: Clock): (r: Step)
    // the guard
    ensures !Accepts(s) ==> r == Step(s, [])
    // every accepted turn
    ensures Accepts(s) ==>
      && !r.state.sending
      && r.state.text == []
      && |r.state.messages| > |s.messages|
      && r.state.messages[..|s.messages| + 1] == s.messages + [UserMessage(s.text, now)]
      && |r.effects| > 0
      && r.effects[0] == AnalyzeDistress(s.text)
  {
    if !Accepts(s) then Step(s, [])
    else
      match o.distress
      case Threw => Step(Shown(s, now), [AnalyzeDistress(s.text), LogError])
      case Ok(verdict) =>
        if verdict == Alert then
          Step(Shown(s, now), [AnalyzeDistress(s.text), ActivateEmergencyMode])
        else
          Answer(s, props, o, now)
  }

  // ---------------------------------------------------------------------------
  // Effects that feed the state

  /** The load effect, run on mount and whenever the initial messages or the
      user change. Non-empty initial messages replace the transcript and leave
      the session alone, without touching storage; otherwise storage is read
      for the user's last session, which, if there is one, becomes both the
      transcript and the session. The input and the in-flight flag are never
      touched. */
  function LoadLastChat(s: ChatState, userEmail: JsString, initialMessages: Option<seq<Message>>, last: Option<ChatSession>): (r: Step)
    ensures r.state.text == s.text && r.state.sending == s.sending
    ensures initialMessages.Some? && |initialMessages.value| > 0 ==>
      r.state.messages == initialMessages.value && r.state.session == s.session && r.effects == []
    ensures !(initialMessages.Some? && |initialMessages.value| > 0) ==>
      && r.effects == [ReadLastSession(userEmail)]
      && (last.Some? ==> r.state.messages == last.value.messages && r.state.session == last)
      && (last.None? ==> r.state == s)
  {
    if initialMessages.Some? && |initialMessages.value| > 0 then
      Step(s.(messages := initialMessages.value), [])
    else
      match last
      case Some(stored) => Step(s.(messages := stored.messages, session := Some(stored)), [ReadLastSession(userEmail)])
      case None => Step(s, [ReadLastSession(userEmail)])
  }

  /** The dictation effect: in conversation mode the input box shows the latest
      dictation result; otherwise nothing changes. Only the input is touched. */
  function MirrorDictation(s: ChatState, conversationMode: bool, dictation: JsString): (r: ChatState)
    ensures r.messages == s.messages && r.sending == s.sending && r.session == s.session
    ensures conversationMode ==> r.text == dictation
    ensures !conversationMode ==> r == s
  {
    if conversationMode then s.(text := dictation) else s
  }
}

=== FILE: chat_view_properties.dfy ===
/** What one turn of the chat view promises, outcome by outcome, and what
    holds across turns and loads. */
module ChatViewProperties {
  import opened Js
  import opened Types
  import opened ChatView
  import EmotionMap

  // ---------------------------------------------------------------------------
  // One turn, outcome by outcome

  /** Text that is empty or all white space never starts a turn. */
  lemma BlankInputIsIgnored(s: ChatState, props: Props, o: Oracle, now: Clock)
    requires AllWhiteSpace(s.text)
    ensures SendMessage(s, props, o, now) == Step(s, [])
  {
  }

  /** On an ALERT verdict the transcript gains only the user message, the input
      is cleared, the emergency callback fires exactly once, and neither a reply
      is requested nor a session saved: the session is left as it was. */
  lemma AlertShortCircuits(s: ChatState, props: Props, o: Oracle, now: Clock)
    requires Accepts(s) && IsAlert(o)
    ensures var r := SendMessage(s, props, o, now);
      && r.state.messages == s.messages + [UserMessage(s.text, now)]
      && r.state.text == []
      && !r.state.sending
      && r.state.session == s.session
      && r.effects == [AnalyzeDistress(s.text), ActivateEmergencyMode]
      && multiset(r.effects)[ActivateEmergencyMode] == 1
      && NoReplyRequest(r.effects)
      && NoSave(r.effects)
      && LogError !in r.effects
  {
  }

  /** A distress, reply or sentiment call that throws ends the turn at that
      call: no later call is made, and the error is logged. The user message
      stays shown with nothing rolled back, nothing is saved, the session is
      untouched and the flag is cleared. */
  lemma FailureBeforeSaveKeepsUserMessage(s: ChatState, props: Props, o: Oracle, now: Clock)
    requires Accepts(s) && FailsBeforeSave(o)
    ensures var r := SendMessage(s, props, o, now);
      var history := BaseSession(s, now).messages + [UserMessage(s.text, now)];
      && r.state.messages == s.messages + [UserMessage(s.text, now)]
      && r.state.text == []
      && !r.state.sending
      && r.state.session == s.session
      && NoSave(r.effects)
      && LogError in r.effects
      && ActivateEmergencyMode !in r.effects
      && (o.distress.Threw? ==> r.effects == [AnalyzeDistress(s.text), LogError])
      && (o.distress.Ok? && o.reply.Threw? ==>
            r.effects == [AnalyzeDistress(s.text), RequestReply(s.text, history, props.language, props.liveLocation),
                          LogError])
      && (o.distress.Ok? && o.reply.Ok? && o.sentiment.Threw? ==>
            r.effects == [AnalyzeDistress(s.text), RequestReply(s.text, history, props.language, props.liveLocation),
                          AnalyzeSentiment(o.reply.value), LogError])
  {
  }

  /** Only replies show an emoji badge: a user message carries no emotion
      tag, while a reply shows the badge of its sentiment, which reads back as
      that sentiment. */
  lemma OnlyRepliesShowABadge(text: JsString, reply: JsString, emotion: Emotion, now: Clock)
    ensures EmotionMap.Badge(UserMessage(text, now)) == None
    ensures EmotionMap.Badge(ModelMessage(reply, emotion, now)) == Some(EmotionMap.Glyph(emotion))
    ensures EmotionMap.EmotionOfGlyph(EmotionMap.Glyph(emotion)) == Some(emotion)
  {
    EmotionMap.GlyphRoundTrip(emotion);
  }

  /** A turn that gets its reply shows exactly two new messages, in order: the
      user's, with the text typed, then the model's, with the reply text and
      the sentiment tag. The two ids differ. */
  lemma SuccessfulTurnAppendsPair(s: ChatState, props: Props, o: Oracle, now: Clock)
    requires Accepts(s) && ReachesSave(o)
    ensures var r := SendMessage(s, props, o, now);
      var user := UserMessage(s.text, now);
      var model := ModelMessage(o.reply.value, o.sentiment.value, now);
      && r.state.messages == s.messages + [user, model]
      && user.sender == User && user.text == s.text && user.emotion == None
      && model.sender == Model && model.text == o.reply.value && model.emotion == Some(o.sentiment.value)
      && user.id != model.id
      && r.state.text == []
      && !r.state.sending
  {
  }

  /** The session a successful turn saves. The reply is requested with the
      session's messages followed by the user message; the saved session holds
      that history followed by the model message, becomes the current session,
      and is what gets saved, with its last-message time refreshed. A continued
      session keeps its id, title and start time; a new one starts empty,
      titled with the first 25 code units of the text, with a fresh `s_` id
      and start time. The calls happen in order: distress, reply, sentiment, save. */
  lemma SuccessfulTurnSavesExtendedSession(s: ChatState, props: Props, o: Oracle, now: Clock)
    requires Accepts(s) && ReachesSave(o)
    ensures var r := SendMessage(s, props, o, now);
      var user := UserMessage(s.text, now);
      var model := ModelMessage(o.reply.value, o.sentiment.value, now);
      var prior := if s.session.Some? then s.session.value.messages else [];
      && r.state.session.Some?
      && r.state.session.value.messages == prior + [user, model]
      && |r.effects| >= 4
      && r.effects[0] == AnalyzeDistress(s.text)
      && r.effects[1] == RequestReply(s.text, prior + [user], props.language, props.liveLocation)
      && r.effects[2] == AnalyzeSentiment(o.reply.value)
      && r.effects[3] == SaveSession(props.userEmail, r.state.session.value)
      && ActivateEmergencyMode !in r.effects
      && (s.session.Some? ==>
            && r.state.session.value.id == s.session.value.id
            && r.state.session.value.title == s.session.value.title
            && r.state.session.value.startTime == s.session.value.startTime)
      && (s.session.None? ==>
            && r.state.session.value.id == SessionId(now.sessionId)
            && r.state.session.value.startTime == now.sessionStart
            && r.state.session.value.title <= s.text
            && |r.state.session.value.title| == Min(TitleLength, |s.text|))
      && r.state.session.value.lastMessageTime == now.savedLast
  {
  }

  /** Speech comes after the save: whatever the speech call does, the session
      stands as saved. A failing save is logged and skips the speech. Speech is
      requested only in conversation mode with audio ready, non-empty audio is
      played, and a throw from the request or from starting playback is
      logged. */
  lemma SpeechFollowsSave(s: ChatState, props: Props, o: Oracle, now: Clock)
    requires Accepts(s) && ReachesSave(o)
    ensures var r := SendMessage(s, props, o, now);
      && |r.effects| >= 4
      && r.effects[3] == SaveSession(props.userEmail, r.state.session.value)
      && (o.save.Threw? ==> r.effects[4..] == [LogError])
      && (o.save.Ok? && !(props.conversationMode && props.audioReady) ==> r.effects[4..] == [])
      && (o.save.Ok? && props.conversationMode && props.audioReady ==>
            && r.effects[4] == GenerateSpeech(o.reply.value)
            && (o.speech.Threw? ==> r.effects[5..] == [LogError])
            && (Audible(o.speech) ==>
                  && |r.effects| > 5
                  && r.effects[5] == PlayAudio(o.speech.value.value)
                  && (o.playback.Threw? ==> r.effects[6..] == [LogError])
                  && (o.playback.Ok? ==> r.effects[6..] == []))
            && (o.speech.Ok? && (o.speech.value.None? || o.speech.value.value == []) ==>
                  r.effects[5..] == []))
  {
  }

  /** Every turn the guard lets through clears the input, so submitting again
      without new input does nothing. */
  lemma ResubmitIsIgnored(s: ChatState, props: Props, o: Oracle, now: Clock, props': Props, o': Oracle, now': Clock)
    requires Accepts(s)
    ensures var r := SendMessage(s, props, o, now);
      SendMessage(r.state, props', o', now') == Step(r.state, [])
  {
  }

  // ---------------------------------------------------------------------------
  // The session inside the transcript

  /** `a` can be obtained from `b` by deleting elements. */
  predicate IsSubsequence<T(==)>(a: seq<T>, b: seq<T>)
    decreases |b|
  {
    if |a| == 0 then true
    else if |b| == 0 then false
    else if a[0] == b[0] then IsSubsequence(a[1..], b[1..])
    else IsSubsequence(a, b[1..])
  }

  lemma {:induction false} SubsequenceReflexive<T>(a: seq<T>)
    ensures IsSubsequence(a, a)
    decreases |a|
  {
    if |a| > 0 {
      SubsequenceReflexive(a[1..]);
    }
  }

  /** Appending to the longer sequence keeps a subsequence one. */
  lemma {:induction false} SubsequenceExtend<T>(a: seq<T>, b: seq<T>, x: T)
    requires IsSubsequence(a, b)
    ensures IsSubsequence(a, b + [x])
    decreases |b|
  {
    if |a| > 0 {
      assert (b + [x])[1..] == b[1..] + [x];
      if a[0] != b[0] {
        SubsequenceExtend(a, b[1..], x);
      } else {
        SubsequenceExtend(a[1..], b[1..], x);
      }
    }
  }

  /** Appending the same element to both keeps a subsequence one. */
  lemma {:induction false} SubsequenceAppendBoth<T>(a: seq<T>, b: seq<T>, x: T)
    requires IsSubsequence(a, b)
    ensures IsSubsequence(a + [x], b + [x])
    decreases |b|
  {
    if |b| == 0 {
      assert a == [];
      assert (a + [x])[1..] == [];
    } else {
      assert (b + [x])[1..] == b[1..] + [x];
      if |a| == 0 {
        if b[0] != x {
          SubsequenceAppendBoth(a, b[1..], x);
        }
      } else {
        assert (a + [x])[1..] == a[1..] + [x];
        if a[0] == b[0] {
          SubsequenceAppendBoth(a[1..], b[1..], x);
        } else {
          SubsequenceAppendBoth(a, b[1..], x);
        }
      }
    }
  }

  /** A session's messages come in turns: a user message, then its reply. */
  predicate Paired(ms: seq<Message>) {
    && |ms| % 2 == 0
    && forall i | 0 <= i < |ms| :: ms[i].sender == if i % 2 == 0 then User else Model
  }

  /** The current session is made of whole turns, all of them still shown, in
      order, in the transcript (which may show more: an alerted message, a
      message whose turn failed). */
  predicate SessionShown(s: ChatState) {
    s.session.Some? ==>
      && Paired(s.session.value.messages)
      && IsSubsequence(s.session.value.messages, s.messages)
  }

  /** Appending one message to the transcript keeps the session inside it. */
  lemma {:induction false} ShownAfterOneMessage(s: ChatState, user: Message)
    requires SessionShown(s)
    ensures SessionShown(s.(messages := s.messages + [user], text := [], sending := false))
  {
    if s.session.Some? {
      SubsequenceExtend(s.session.value.messages, s.messages, user);
    }
  }

  /** Appending a user/model pair to both the session and the transcript keeps
      the session made of whole turns and inside the transcript. */
  lemma {:induction false} ShownAfterPair(prior: seq<Message>, shown: seq<Message>, user: Message, model: Message)
    requires Paired(prior) && IsSubsequence(prior, shown)
    requires user.sender == User && model.sender == Model
    ensures Paired(prior + [user, model])
    ensures IsSubsequence(prior + [user, model], shown + [user, model])
  {
    SubsequenceAppendBoth(prior, shown, user);
    SubsequenceAppendBoth(prior + [user], shown + [user], model);
    assert prior + [user] + [model] == prior + [user, model];
    assert shown + [user] + [model] == shown + [user, model];
  }

  lemma SessionShownAfterSuccess(s: ChatState, props: Props, o: Oracle, now: Clock)
    requires SessionShown(s) && Accepts(s) && ReachesSave(o)
    ensures SessionShown(SendMessage(s, props, o, now).state)
  {
    SuccessfulTurnAppendsPair(s, props, o, now);
    SuccessfulTurnSavesExtendedSession(s, props, o, now);
    var prior := if s.session.Some? then s.session.value.messages else [];
    ShownAfterPair(prior, s.messages, UserMessage(s.text, now), ModelMessage(o.reply.value, o.sentiment.value, now));
  }

  lemma SessionShownAfterShortTurn(s: ChatState, props: Props, o: Oracle, now: Clock)
    requires SessionShown(s) && Accepts(s) && !ReachesSave(o)
    ensures SessionShown(SendMessage(s, props, o, now).state)
  {
    OutcomesPartition(o);
    ShownAfterOneMessage(s, UserMessage(s.text, now));
  }

  /** Every turn, whatever its outcome, keeps the session inside the transcript. */
  lemma SendMessagePreservesSessionShown(s: ChatState, props: Props, o: Oracle, now: Clock)
    requires SessionShown(s)
    ensures SessionShown(SendMessage(s, props, o, now).state)
  {
    if Accepts(s) {
      if ReachesSave(o) {
        SessionShownAfterSuccess(s, props, o, now);
      } else {
        SessionShownAfterShortTurn(s, props, o, now);
      }
    }
  }

  /** The load on mount leaves the session inside the transcript, provided the
      stored session is made of whole turns, as every session a turn saves is. */
  lemma LoadOnMountEstablishesSessionShown(
    userEmail: JsString, initialMessages: Option<seq<Message>>, last: Option<ChatSession>)
    requires last.Some? ==> Paired(last.value.messages)
    ensures SessionShown(LoadLastChat(Mounted, userEmail, initialMessages, last).state)
  {
    if last.Some? {
      SubsequenceReflexive(last.value.messages);
    }
  }

  /** Every session a turn saves is made of whole turns. */
  lemma SavedSessionIsPaired(s: ChatState, props: Props, o: Oracle, now: Clock)
    requires SessionShown(s) && Accepts(s) && ReachesSave(o)
    ensures Paired(SendMessage(s, props, o, now).state.session.value.messages)
  {
    SendMessagePreservesSessionShown(s, props, o, now);
  }

  // ---------------------------------------------------------------------------
  // Across turns and loads

  /** An alerted message stays in the transcript but never reaches the session:
      after an ALERT turn and then a successful one, the session holds only the
      second turn's pair on top of what it held before, while the transcript
      shows all three new messages. */
  lemma AlertedMessageIsNeverSaved(
    s: ChatState, props: Props, o1: Oracle, now1: Clock, next: JsString, o2: Oracle, now2: Clock)
    requires Accepts(s) && IsAlert(o1)
    requires !AllWhiteSpace(next) && ReachesSave(o2)
    ensures
      var s1 := SendMessage(s, props, o1, now1).state.(text := next);
      var r := SendMessage(s1, props, o2, now2);
      var prior := if s.session.Some? then s.session.value.messages else [];
      var u1 := UserMessage(s.text, now1);
      var n := |s.messages|;
      && r.state.messages == s.messages + [u1] + r.state.messages[n + 1..]
      && |r.state.messages[n + 1..]| == 2
      && r.state.session.value.messages == prior + r.state.messages[n + 1..]
  {
  }

  /** Initial messages handed to the view on mount are shown but never become
      part of a session: the first turn after loading them starts a new
      session, asks for a reply with only the new user message as history, and
      saves just the new pair. */
  lemma InitialMessagesStayOutOfSession(
    userEmail: JsString, initial: seq<Message>, last: Option<ChatSession>,
    text: JsString, props: Props, o: Oracle, now: Clock)
    requires |initial| > 0 && !AllWhiteSpace(text) && ReachesSave(o)
    ensures
      var loaded := LoadLastChat(Mounted, userEmail, Some(initial), last).state.(text := text);
      var r := SendMessage(loaded, props, o, now);
      var user := UserMessage(text, now);
      && r.state.messages[..|initial|] == initial
      && r.state.session.value.messages == r.state.messages[|initial|..]
      && r.effects[1] == RequestReply(text, [user], props.language, props.liveLocation)
  {
  }

  /** The load effect runs again whenever the initial messages change, and
      that run replaces the transcript but keeps the current session. The next
      turn then continues the session the transcript no longer shows: its reply
      request carries the session's whole history, and the session it saves
      holds that history plus the new pair, while the transcript shows the
      initial messages followed by the new pair. */
  lemma ReloadKeepsHiddenSession(
    s: ChatState, userEmail: JsString, initial: seq<Message>, last: Option<ChatSession>,
    text: JsString, props: Props, o: Oracle, now: Clock)
    requires s.session.Some? && !s.sending
    requires |initial| > 0 && !AllWhiteSpace(text) && ReachesSave(o)
    ensures
      var loaded := LoadLastChat(s, userEmail, Some(initial), last).state.(text := text);
      var r := SendMessage(loaded, props, o, now);
      var history := s.session.value.messages;
      && loaded.messages == initial
      && loaded.session == s.session
      && r.effects[1] == RequestReply(text, history + [UserMessage(text, now)], props.language, props.liveLocation)
      && |r.state.messages| == |initial| + 2
      && r.state.messages[..|initial|] == initial
      && r.state.session.value.messages == history + r.state.messages[|initial|..]
  {
  }

  /** So `SessionShown` holds after the load on mount but not after every
      load: a re-run with initial messages can hide a session that was shown. */
  lemma ReloadCanHideSession(
    user: Message, model: Message, current: ChatSession, other: Message,
    userEmail: JsString, last: Option<ChatSession>)
    requires user.sender == User && model.sender == Model
    requires current.messages == [user, model]
    ensures var s := ChatState([user, model], [], false, Some(current));
      && SessionShown(s)
      && !SessionShown(LoadLastChat(s, userEmail, Some([other]), last).state)
  {
    SubsequenceReflexive([user, model]);
    var shown := LoadLastChat(ChatState([user, model], [], false, Some(current)), userEmail, Some([other]), last).state;
    assert shown.messages == [other] && shown.session == Some(current);
    assert [other][1..] == [] && [user, model][1..] == [model];
    assert !IsSubsequence([model], []) && !IsSubsequence([user, model], []);
  }

  /** In conversation mode the dictated text is what the next turn sends. */
  lemma DictationFeedsTurn(s: ChatState, dictation: JsString, props: Props, o: Oracle, now: Clock)
    requires !s.sending && !AllWhiteSpace(dictation)
    ensures var r := SendMessage(MirrorDictation(s, true, dictation), props, o, now);
      && |r.state.messages| > |s.messages|
      && r.state.messages[|s.messages|].text == dictation
      && r.effects[0] == AnalyzeDistress(dictation)
  {
  }
}

=== FILE: emotion_map.dfy ===
/** The emoji shown next to a message tagged with an emotion. */
module EmotionMap {
  import opened Js
  import opened Types

  /** The emoji code point for each emotion; the table is total over
      `Emotion`. */
  function GlyphCodePoint(e: Emotion): int {
    match e
    case Happy => 0x1F60A
    case Sad => 0x1F614
    case Angry => 0x1F620
    case Surprised => 0x1F62E
    case Neutral => 0x1F914
    case Fearful => 0x1F628
    case Disgusted => 0x1F922
    case Unknown => 0x1F4AC
  }

  /** The badge for an emotion as the JavaScript string the view renders.
      Every emoji in the table lies outside the Basic Multilingual Plane, so
      each badge is one character but two code units. */
  function Glyph(e: Emotion): (r: JsString)
    ensures IsSurrogatePair(r)
    ensures PairCodePoint(r) == GlyphCodePoint(e)
  {
    Astral(GlyphCodePoint(e))
  }

  /** Reads an emotion back from its badge; `None` for any other string. */
  function EmotionOfGlyph(g: JsString): (r: Option<Emotion>)
    ensures r.Some? ==> Glyph(r.value) == g
  {
    if !IsSurrogatePair(g) then None
    else
      AstralOfPair(g);
      var cp := PairCodePoint(g);
      if cp == 0x1F60A then Some(Happy)
      else if cp == 0x1F614 then Some(Sad)
      else if cp == 0x1F620 then Some(Angry)
      else if cp == 0x1F62E then Some(Surprised)
      else if cp == 0x1F914 then Some(Neutral)
      else if cp == 0x1F628 then Some(Fearful)
      else if cp == 0x1F922 then Some(Disgusted)
      else if cp == 0x1F4AC then Some(Unknown)
      else None
  }

  /** Every badge identifies its emotion, so no two emotions share a badge. */
  lemma GlyphRoundTrip(e: Emotion)
    ensures EmotionOfGlyph(Glyph(e)) == Some(e)
  {
  }

  /** What a rendered message shows after its text: the badge of its emotion
      tag, and nothing when the message carries no tag. */
  function Badge(m: Message): (r: Option<JsString>)
    ensures r.Some? <==> m.emotion.Some?
    ensures r.Some? ==> EmotionOfGlyph(r.value) == m.emotion
  {
    match m.emotion
    case None => None
    case Some(e) => GlyphRoundTrip(e); Some(Glyph(e))
  }
}

=== FILE: js.dfy ===
/** The JavaScript string primitives the chat view relies on.

    A JavaScript string is a sequence of UTF-16 code units, and both
    `String.prototype.trim` and `String.prototype.slice` work on code units,
    so text is modelled as `seq<CodeUnit>` rather than as a Dafny `string`.
 */
module Js {

  /** One UTF-16 code unit. */
  newtype CodeUnit = x: int | 0 <= x < 0x1_0000

  type JsString = seq<CodeUnit>

  function Min(a: nat, b: nat): nat {
    if a <= b then a else b
  }

  /** The ECMAScript WhiteSpace and LineTerminator code points: TAB, LF, VT,
      FF, CR, SPACE, NBSP, the remaining Zs separators, LS, PS and the BOM. */
  predicate IsWhiteSpace(c: CodeUnit) {
    || c == 0x09 || c == 0x0A || c == 0x0B || c == 0x0C || c == 0x0D
    || c == 0x20 || c == 0xA0 || c == 0x1680
    || (0x2000 <= c <= 0x200A)
    || c == 0x2028 || c == 0x2029 || c == 0x202F || c == 0x205F
    || c == 0x3000 || c == 0xFEFF
  }

  predicate AllWhiteSpace(s: JsString) {
    forall i | 0 <= i < |s| :: IsWhiteSpace(s[i])
  }

  /** Drops the leading white space: what remains is a suffix of `s`, everything
      dropped was white space, and the suffix does not start with white space. */
  function TrimStart(s: JsString): (r: JsString)
    ensures |r| <= |s| && r == s[|s| - |r|..]
    ensures forall i | 0 <= i < |s| - |r| :: IsWhiteSpace(s[i])
    ensures |r| > 0 ==> !IsWhiteSpace(r[0])
    decreases |s|
  {
    if |s| > 0 && IsWhiteSpace(s[0]) then
      var r := TrimStart(s[1..]);
      assert forall i | 1 <= i < |s| - |r| :: s[i] == s[1..][i - 1];
      r
    else
      s
  }

  /** Drops the trailing white space: what remains is a prefix of `s`, everything
      dropped was white space, and the prefix does not end with white space. */
  function TrimEnd(s: JsString): (r: JsString)
    ensures |r| <= |s| && r == s[..|r|]
    ensures forall i | |r| <= i < |s| :: IsWhiteSpace(s[i])
    ensures |r| > 0 ==> !IsWhiteSpace(r[|r| - 1])
    decreases |s|
  {
    if |s| > 0 && IsWhiteSpace(s[|s| - 1]) then
      var r := TrimEnd(s[..|s| - 1]);
      assert forall i | |r| <= i < |s| - 1 :: s[i] == s[..|s| - 1][i];
      r
    else
      s
  }

  /** `s.trim()`. It is empty exactly when `s` is all white space, which is
      when JavaScript treats `s.trim()` as falsy; otherwise it neither starts
      nor ends with white space. */
  function Trim(s: JsString): (r: JsString)
    ensures |r| <= |s|
    ensures r == [] <==> AllWhiteSpace(s)
    ensures |r| > 0 ==> !IsWhiteSpace(r[0]) && !IsWhiteSpace(r[|r| - 1])
  {
    var t := TrimStart(s);
    var r := TrimEnd(t);
    assert r != [] ==> s[|s| - |t|] == r[0];
    r
  }

  /** What `trim` keeps is one contiguous run of `s`, and everything around
      that run is white space. */
  lemma TrimIsInfix(s: JsString)
    ensures exists i | 0 <= i <= |s| - |Trim(s)| ::
      && s[i..][..|Trim(s)|] == Trim(s)
      && AllWhiteSpace(s[..i])
      && AllWhiteSpace(s[i + |Trim(s)|..])
  {
    var t := TrimStart(s);
    var r := TrimEnd(t);
    var k := |s| - |t|;
    assert Trim(s) == r;
    assert s[k..] == t && t[..|r|] == r;
    assert AllWhiteSpace(s[..k]) by {
      forall j | 0 <= j < k ensures IsWhiteSpace(s[..k][j]) {
        assert s[..k][j] == s[j];
      }
    }
    assert AllWhiteSpace(s[k + |r|..]) by {
      forall j | k + |r| <= j < |s| ensures IsWhiteSpace(s[j]) {
        assert s[j] == t[j - k];
      }
    }
    assert s[k..][..|r|] == r && AllWhiteSpace(s[..k]) && AllWhiteSpace(s[k + |r|..]);
  }

  /** `s.slice(0, n)`: the first `n` code units of `s`, or all of `s` when it is
      shorter. A surrogate pair straddling position `n` is cut in half. */
  function SlicePrefix(s: JsString, n: nat): (r: JsString)
    ensures |r| == Min(n, |s|)
    ensures r <= s
  {
    s[..Min(n, |s|)]
  }

  /** A code point outside the Basic Multilingual Plane, such as an emoji,
      takes two code units in a JavaScript string: a high surrogate followed
      by a low surrogate. */
  predicate IsSurrogatePair(s: JsString) {
    && |s| == 2
    && 0xD800 <= s[0] <= 0xDBFF
    && 0xDC00 <= s[1] <= 0xDFFF
  }

  predicate IsAstral(cp: int) {
    0x1_0000 <= cp <= 0x10_FFFF
  }

  /** The code point a surrogate pair stands for. */
  function PairCodePoint(s: JsString): (cp: int)
    requires IsSurrogatePair(s)
    ensures IsAstral(cp)
  {
    0x1_0000 + (s[0] as int - 0xD800) * 0x400 + (s[1] as int - 0xDC00)
  }

  /** The UTF-16 encoding of an astral code point: the surrogate pair that
      stands for it. */
  function Astral(cp: int): (r: JsString)
    requires IsAstral(cp)
    ensures IsSurrogatePair(r) && PairCodePoint(r) == cp
  {
    var v := cp - 0x1_0000;
    [(0xD800 + v / 0x400) as CodeUnit, (0xDC00 + v % 0x400) as CodeUnit]
  }

  /** Every surrogate pair is the encoding of the code point it stands for,
      so `Astral` and `PairCodePoint` are inverse bijections. */
  lemma AstralOfPair(s: JsString)
    requires IsSurrogatePair(s)
    ensures Astral(PairCodePoint(s)) == s
  {
  }

  predicate IsDigit(c: CodeUnit) {
    0x30 <= c <= 0x39
  }

  predicate AllDigits(s: JsString) {
    forall i | 0 <= i < |s| :: IsDigit(s[i])
  }

  function DigitUnit(d: nat): (c: CodeUnit)
    requires d < 10
    ensures IsDigit(c) && c as int - 0x30 == d
  {
    (0x30 + d) as CodeUnit
  }

  /** `n.toString()` for a non-negative integer below 10^21 (the range in which
      JavaScript prints integers positionally): its decimal digits, most
      significant first, with no leading zero. */
  function Decimal(n: nat): (r: JsString)
    ensures |r| > 0 && AllDigits(r)
    ensures r[0] == 0x30 <==> n == 0
    ensures r[0] == 0x30 ==> |r| == 1
  {
    if n < 10 then [DigitUnit(n)] else Decimal(n / 10) + [DigitUnit(n % 10)]
  }

  /** The value of a string of decimal digits: the inverse of `Decimal`. */
  function ParseDecimal(s: JsString): nat
    requires AllDigits(s)
  {
    if |s| == 0 then 0 else ParseDecimal(s[..|s| - 1]) * 10 + (s[|s| - 1] as int - 0x30)
  }

  /** Reading back the digits `Decimal` prints gives the number printed. */
  lemma {:induction false} ParseDecimalOfDecimal(n: nat)
    ensures ParseDecimal(Decimal(n)) == n
  {
    if n >= 10 {
      var p := Decimal(n / 10);
      var d := DigitUnit(n % 10);
      assert Decimal(n) == p + [d];
      assert (p + [d])[..|p|] == p;
      ParseDecimalOfDecimal(n / 10);
    }
  }

  /** Two numbers print alike exactly when they are equal. */
  lemma DecimalInjective(a: nat, b: nat)
    ensures Decimal(a) == Decimal(b) <==> a == b
  {
    if Decimal(a) == Decimal(b) {
      ParseDecimalOfDecimal(a);
      ParseDecimalOfDecimal(b);
    }
  }
}

=== FILE: types.dfy ===
/** The records the chat view passes around: emotions, messages and chat
    sessions. Dates are milliseconds since the epoch, as `Date.now()` reads
    them. */
module Types {
  import opened Js

  /** A value that may be `null` or `undefined` in the program. */
  datatype Option<+T> = None | Some(value: T)

  /** The closed set of emotion tags. */
  datatype Emotion = Happy | Sad | Angry | Surprised | Neutral | Fearful | Disgusted | Unknown

  datatype Sender = User | Model

  /** One chat message. The optional `groundingMetadata` field is never set
      by the chat view and is not modelled. */
  datatype Message = Message(
    id: JsString,
    text: JsString,
    sender: Sender,
    timestamp: nat,
    emotion: Option<Emotion>)

  /** One stored conversation. */
  datatype ChatSession = ChatSession(
    id: JsString,
    title: JsString,
    messages: seq<Message>,
    startTime: nat,
    lastMessageTime: nat)
}
